=== FILE: README.md ===
# chess-cli rule layer in Dafny

A model of the rule layer of `chess-cli`, a small terminal chess board written in Rust.
The model covers four things:

- **Pieces and pawn rules** (`src/pieces.rs`): the teams, the piece kinds and their two-letter codes. It also covers the `add_contains` / `add_not_contains` push helpers, the team-relative rank arithmetic `relative_to_team`, and move and attack generation in `get_pawn` / `get_move_blocks`. Only the pawn has rules.
- **Initial board** (`src/chess_board.rs`): `construct_board`, modelled as the exact sequence of map inserts its loops perform.
- **Relocation** (`move_block`): a capture overwrites the destination, and a pawn is always marked as moved.
- **Key handling** (the `KeyCode` arms of `begin`): recast as a pure transition `ChessBoard.Step(session, intent)` over the intents `Up`, `Down`, `Left`, `Right`, `Enter` and `Other`.

Files:

| file | module | models |
|---|---|---|
| `options.dfy` | `Options` | `Option` and a `Result` for the handler's aborting `unwrap`s |
| `unsigned8.dfy` | `Unsigned8` | `u8` with `checked_add` / `checked_sub` and plain `+` / `-` |
| `pieces.dfy` | `Pieces` | `src/pieces.rs` |
| `chess_board.dfy` | `ChessBoard` | `src/chess_board.rs`: setup, lookup, `move_block`, `get_avialable_blocks`, key handling |
| `initial_board.dfy` | `InitialBoard` | what `construct_board` produces, compared with an independent placement table |
| `session.dfy` | `SessionFacts` | invariants of the key handler over any sequence of key events |

The board is a `map<(U8, U8), (Piece, Team)>`, where `U8` is an `int` in [0, 255]. Block lists are `seq`s, kept in the order the source pushes them.

Integer width is written out explicitly:

- `checked_add` and `checked_sub` return an `Option`.
- Plain `u8` `+` and `-` (the diagonal files `position.0 ± 1`, the setup's `9 - x`, and the cursor's `+ 1`) wrap modulo 256. This is how a release build behaves.
- A debug build would abort on those overflows instead. Lemmas show that no such overflow happens in any session reachable from the initial one.

The two `unwrap`s in the key handler abort the program when they meet `None`. `Step` returns `Failure` in those cases instead:

- `SelectedSquareEmpty` for src/chess_board.rs:76.
- `NothingSelected` for src/chess_board.rs:163.

Step's contract shows that `NothingSelected` can never happen. `SessionFacts.PlayFromStart` shows that no session that starts at `ChessBoard::new` aborts at all.

### Behaviour worth knowing

- **Rank advance.** `relative_to_team` falls back to rank 8 (Black) or rank 1 (White) only when the `u8` operation overflows. So a moved Black pawn on rank 8 gets the move square on rank 9, and a moved White pawn on rank 1 gets rank 0. An unmoved Black pawn on rank 8 would also get rank 10, but no session from `ChessBoard::new` has one there, since unmoved pawns stay on their initial squares (`Pieces.MoveSquaresMayLeaveGrid`, `SessionFacts.PlayFromStart`). The cursor never leaves the grid, so such a square is never committed to.
- **Back-rank placement.** The towers, bishops and knights are split by file on both back ranks: Black has files 1–3 and White has files 6–8, on rank 1 and on rank 8 alike. Kings and queens are Black on rank 1 and White on rank 8. Black thus holds files 1–5 of rank 1 and files 1–3 of rank 8 (`InitialBoard.BackRanksSplitByFile`).
- **Blocked one-step square.** The one-step square is pushed only when it is empty, and the two-step square is tested independently. So an unmoved pawn whose one-step square is occupied still gets the two-step square, when that square is empty (`Pieces.TwoStepIgnoresBlockedPath`).

## Model

| member | source | states |
|---|---|---|
| `Unsigned8.CheckedAdd` | src/pieces.rs:67 | `checked_add` yields nothing exactly when the sum exceeds 255, and otherwise the exact sum |
| `Unsigned8.CheckedSub` | src/pieces.rs:68 | `checked_sub` yields nothing exactly when the subtrahend is larger, and otherwise the exact difference; the cursor's `checked_sub(1)` at src/chess_board.rs:141 and :150 is the same operation |
| `Unsigned8.WrappingAdd` | src/pieces.rs:92 | plain `u8` `+` is the exact sum below 256 and wraps by 256 otherwise; the cursor's `+ 1` at src/chess_board.rs:146 and :156 is the same operation |
| `Unsigned8.WrappingSub` | src/pieces.rs:97 | plain `u8` `-` is the exact difference when it is not negative and wraps by 256 otherwise; the setup's `9 - x` at src/chess_board.rs:43-61 is the same operation |
| `ChessBoard.Lookup` | src/chess_board.rs:76 | `board.get` finds something exactly when the square is occupied, and then the piece on it; `move_block`'s lookup at :181 is the same |
| `Pieces.PieceChar` | src/pieces.rs:22-31 | every kind has a code of exactly two capital letters |
| `Pieces.PieceCharIdentifiesKind` | src/pieces.rs:22-31 | two pieces have the same code exactly when they are the same kind; `Pawn(true)` and `Pawn(false)` share "PA" |
| `Pieces.AddContains` | src/pieces.rs:47-54 | appends `position` exactly when the board lacks it, reports whether it did, and keeps the earlier blocks as a prefix |
| `Pieces.AddNotContains` | src/pieces.rs:56-63 | appends `position` exactly when the board has it, reports whether it did, and keeps the earlier blocks as a prefix |
| `Pieces.AddContainsIsDualOfAddNotContains` | src/pieces.rs:47-63 | for every square exactly one of the two helpers pushes, and the other leaves the list unchanged |
| `Pieces.RelativeToTeam` | src/pieces.rs:65-70 | Black gets `initial + add` unless that exceeds 255, then 8; White gets `initial - add` unless `add > initial`, then 1 |
| `Pieces.BlackNeverSaturatesOnGrid` | src/pieces.rs:67 | from ranks 1..8 with a step of 1 or 2, Black gets exactly `initial + add` (up to rank 10) |
| `Pieces.WhiteSaturatesOnlyBelowZero` | src/pieces.rs:68 | from ranks 1..8, White falls back to rank 1 only for a two-step from rank 1; otherwise it gets `initial - add`, which can be 0 |
| `Pieces.GetPawn` | src/pieces.rs:72-101 | a square is a move square iff it is empty and is the one-step square, or (unmoved only) the two-step square; a square is an attack square iff it is occupied and is one of the two forward diagonals; a moved pawn has at most one move; two moves come in the order two-step then one-step |
| `Pieces.TwoStepIgnoresBlockedPath` | src/pieces.rs:75-87 | with the one-step square occupied and the two-step square empty, an unmoved pawn's moves are exactly the two-step square |
| `Pieces.MoveSquaresMayLeaveGrid` | src/pieces.rs:75-87 | on every board with all pieces on the grid: a moved White pawn on rank 1 gets exactly the rank-0 square, a moved Black pawn on rank 8 exactly the rank-9 square, and an unmoved Black pawn on rank 8 ranks 10 then 9 |
| `Pieces.DiagonalFilesNeverWrap` | src/pieces.rs:89-98 | for files 1..8 the diagonal files are exactly file + 1 and file - 1, within 0..9, with no `u8` wrap |
| `Pieces.AttacksStayOnGrid` | src/pieces.rs:89-98 | on a board whose pieces are all on the grid, no attack square is off the grid |
| `Pieces.AttackIgnoresTeam` | src/pieces.rs:89-98 | on every board, for every pawn, each piece of the pawn's own team on either forward diagonal is among its attack squares |
| `Pieces.NoBlocks` | src/pieces.rs:38-45 | no contract of its own: `AvialableBlocks::new()`, two empty lists; the `!piece.Pawn?` clause of `Pieces.GetMoveBlocks` and the no-selection clause of `ChessBoard.GetAvailableBlocks` state where it is returned |
| `Pieces.GetMoveBlocks` | src/pieces.rs:103-113 | non-pawns get no moves and no attacks; a pawn gets the pawn rules for its own team and moved flag: a square is a move square iff it is empty and is the one-step square or (unmoved only) the two-step square, and an attack square iff it is occupied and is a forward diagonal; every move square is empty, every attack square occupied, and no square is both |
| `ChessBoard.NewSession` | src/chess_board.rs:21-29 | the session starts with the cursor on (1, 1) and nothing selected |
| `ChessBoard.GetAvailableBlocks` | src/chess_board.rs:73-81 | with nothing selected there are no blocks; the lookup aborts exactly when the selected square is empty; a selected non-pawn has no targets; a selected pawn's move and attack squares are exactly the pawn rules' squares for that pawn's own square, team and moved flag; moves are empty squares and attacks occupied ones |
| `ChessBoard.MoveBlock` | src/chess_board.rs:180-194 | the destination holds the moved piece with its team, a pawn now marked moved; the source square is empty when it differs from the destination; every other square is unchanged; any earlier occupant of the destination is gone; the piece count does not grow |
| `ChessBoard.MoveCursor` | src/chess_board.rs:138-157 | each arrow changes one coordinate as `max(c - 1, 1)` or `min(c + 1, 8)` for c on the grid (the `u8` wrap gives 0 from 255); the cursor stays on the grid |
| `ChessBoard.ConstructBoard` | src/chess_board.rs:31-71 | no contract of its own: the inserts of the three setup loops (`BackRankLoop` for :41-51, `RoyalLoop` for :59-62, `PawnLoop` for :65-68) applied in program order by `InsertAll`; `InitialBoard.ConstructBoardMatchesTable` and `InitialBoard.ConstructBoardCounts` state what it builds |
| `ChessBoard.Step` | src/chess_board.rs:137-171 | from a valid session a key event never aborts and yields a valid session; the only possible abort is the empty-selection lookup; the piece count never grows; non-Enter keys leave board and selection alone |
| `ChessBoard.Run` | src/chess_board.rs:134-172 | the key loop over a sequence of events: an abort can only be the empty-selection lookup and needs an Enter among the events; the piece count never grows; without Enter the board and selection are untouched; from a valid session nothing aborts and the result is valid |
| `InitialBoard.RankSpanSize` | src/chess_board.rs:65-68 | a run of files on one rank holds one square per file |
| `InitialBoard.InsertAllKeys` | src/chess_board.rs:31-71 | a sequence of inserts occupies exactly the old squares plus the inserted ones |
| `InitialBoard.PawnLoopFacts` | src/chess_board.rs:65-68 | the pawn loop inserts 16 unmoved pawns: Black on all of rank 2, White on all of rank 7 |
| `InitialBoard.ConstructBoardMatchesTable` | src/chess_board.rs:31-71 | on every square, `construct_board` agrees with an independently written placement table, and it occupies exactly ranks 1, 2, 7 and 8 |
| `InitialBoard.ConstructBoardCounts` | src/chess_board.rs:31-71 | 32 pieces from 32 inserts, so no insert overwrites another; all on the grid; 16 per team |
| `InitialBoard.BackRanksSplitByFile` | src/chess_board.rs:35-62 | on ranks 1 and 8 alike: Black tower, bishop and knight on files 1/2/3, White on files 8/7/6; kings on (4,1) and (4,8), queens on (5,1) and (5,8), Black on rank 1 |
| `InitialBoard.PawnRanks` | src/chess_board.rs:64-68 | every file has a Black unmoved pawn on rank 2 and a White one on rank 7, and ranks 3–6 are empty |
| `SessionFacts.NewSessionValid` | src/chess_board.rs:21-29 | the initial session satisfies the session invariant, has 32 pieces and has every unmoved pawn home |
| `SessionFacts.MoveBlockKeepsPawnsHome` | src/chess_board.rs:180-194 | relocating a piece never leaves a pawn with a clear moved flag off its initial square, because the moved pawn's flag is set and every other square is unchanged |
| `SessionFacts.StepKeepsPawnsHome` | src/chess_board.rs:180-194 | after any successful key event every pawn with a clear moved flag still stands on its initial square |
| `SessionFacts.RunKeepsInvariants` | src/chess_board.rs:134-172 | from a valid session any sequence of key events never aborts, keeps the invariant and the unmoved pawns home, and never adds a piece |
| `SessionFacts.PlayFromStart` | src/chess_board.rs:134-172 | from `ChessBoard::new`, for any sequence of key events: no `unwrap` fails, pieces and cursor stay on the grid, the selection stays occupied, there are at most 32 pieces, and unmoved pawns stay home |
| `SessionFacts.ArrowMovesCursorOneSquare` | src/chess_board.rs:138-157 | an arrow moves the cursor at most one square along one axis, keeps it on the grid and touches neither the board nor the selection |
| `SessionFacts.SelectionIsNeverATarget` | src/chess_board.rs:159-164 | the selected square is never among its own move or attack squares, so a commit always vacates it |
| `SessionFacts.EnterOnTargetCommits` | src/chess_board.rs:159-164 | Enter on a target moves the selected piece to the cursor (a pawn marked moved), empties the selected square, removes any earlier occupant, leaves every other square alone and clears the selection |
| `SessionFacts.EnterElsewhereSelects` | src/chess_board.rs:165-169 | Enter off the targets selects an occupied cursor square, replacing any earlier selection, and otherwise changes nothing; the board is untouched |
| `SessionFacts.EnterWhileIdle` | src/chess_board.rs:158-169 | with nothing selected, Enter never moves a piece: it selects an occupied cursor square and ignores an empty one |
| `SessionFacts.OpeningBlackPawn` | src/pieces.rs:72-101 | on the initial board, the Black pawn on (5, 2) may move to (5, 4) then (5, 3) and has no attack squares |

## Left out

- `draw` (src/chess_board.rs:83-126): terminal styling, string building and clearing the screen. It reads the board, the cursor and the selection but changes no state. Its call to `get_avialable_blocks` (src/chess_board.rs:90) performs the same lookup that `Step` models, and that lookup cannot fail while `ChessBoard.Valid` holds. The source redraws after every key event, arrows and other keys included, so from a session whose selected square is empty it would abort on any key, not only on Enter; no such session is reachable from `ChessBoard::new` (`SessionFacts.PlayFromStart`).
- The event-loop plumbing of `begin` (src/chess_board.rs:128-136, 173-177) is left out: reading events from the terminal, the debug `println!`, the `Term` handle and the `drawn` flag. These are I/O. Their key events become the `Intent` values, and `ChessBoard.Run` folds `Step` over a sequence of them, stopping at the first abort.
- `HashMap` iteration order, and the `Debug` / `Clone` derives, play no part in the rules.
- Debug-build overflow panics are not modelled: plain `u8` `+` and `-` are modelled as wrapping. On reachable sessions this makes no difference: `Pieces.DiagonalFilesNeverWrap` and `SessionFacts.PlayFromStart` show that files stay in 1..8 and the cursor stays on the grid, and the setup only computes `9 - x` for x in 1..8.
- Rules the code does not have are not added: check and checkmate, castling, en passant, promotion, turn order, same-team capture filtering, a clear path for the two-step push, and moves for non-pawn pieces. Off-grid rank-0/9/10 squares are kept in the move lists, as the code keeps them.

=== FILE: chess_board.dfy ===
/**
 * The board session of `src/chess_board.rs`: the initial placement, the
 * relocation of a piece, and the key handling of the interactive loop recast
 * as a pure transition `Step(session, intent)`.
 *
 * The source aborts (`unwrap` on `None`) in two places; the model returns a
 * `Failure` naming the place instead, and the invariant lemmas show that
 * neither is ever reached from the initial session.
 */
module ChessBoard {
  import opened Options
  import opened Unsigned8
  import opened Pieces

  /** One `insert` of the board setup: a square and what is put there. */
  type Placement = (Square, (Piece, Team))

  /** The back-rank pieces that the first two setup loops place and mirror. */
  const DefaultBackRank: seq<(Square, Piece)> := [((1, 1), Tower), ((2, 1), Bishop), ((3, 1), Knight)]

  /** The king and queen that the third setup loop places and mirrors. */
  const DefaultRoyals: seq<(Square, Piece)> := [((4, 1), King), ((5, 1), Queen)]

  /**
   * The first two setup loops: for each default `((file, rank), piece)` a Black
   * piece at `file` and a White one at `9 - file`, both on `rank` itself or,
   * when `mirrorRank` holds, on `9 - rank`.
   */
  function BackRankLoop(defaults: seq<(Square, Piece)>, mirrorRank: bool): seq<Placement>
  {
    if defaults == [] then []
    else
      var (sq, piece) := defaults[0];
      var rank := if mirrorRank then WrappingSub(9, sq.1) else sq.1;
      [((sq.0, rank), (piece, Black)), ((WrappingSub(9, sq.0), rank), (piece, White))]
        + BackRankLoop(defaults[1..], mirrorRank)
  }

  /** The third setup loop: a Black piece at its square, a White one at `9 - rank`. */
  function RoyalLoop(defaults: seq<(Square, Piece)>): seq<Placement>
  {
    if defaults == [] then []
    else
      var (sq, piece) := defaults[0];
      [(sq, (piece, Black)), ((sq.0, WrappingSub(9, sq.1)), (piece, White))] + RoyalLoop(defaults[1..])
  }

  /** The pawn loop `for role in 1..9`, from `role` on: Black on rank 2, White on rank 7. */
  function PawnLoop(role: U8): seq<Placement>
    requires 1 <= role <= 9
    decreases 9 - role
  {
    if role == 9 then []
    else [((role, 2), (Pawn(false), Black)), ((role, 7), (Pawn(false), White))] + PawnLoop(role + 1)
  }

  /** Every `insert` that `construct_board` performs, in program order. */
  function InsertionLog(): seq<Placement>
  {
    BackRankLoop(DefaultBackRank, false) + BackRankLoop(DefaultBackRank, true)
      + RoyalLoop(DefaultRoyals) + PawnLoop(1)
  }

  /** `HashMap::insert` applied to each placement in turn; a later one overwrites. */
  function InsertAll(board: Board, log: seq<Placement>): Board
    decreases |log|
  {
    if log == [] then board else InsertAll(board[log[0].0 := log[0].1], log[1..])
  }

  /** `construct_board`. */
  function ConstructBoard(): Board
  {
    InsertAll(map[], InsertionLog())
  }

  /** `board.get(&sq)`. */
  function Lookup(board: Board, sq: Square): (r: Option<(Piece, Team)>)
    ensures r.Some? <==> sq in board
    ensures r.Some? ==> board[sq] == r.value
  {
    if sq in board then Some(board[sq]) else None
  }

  /**
   * `move_block`: take the piece off `pos` and put it on `newPos`, replacing
   * whatever stood there. A pawn arrives with its moved flag set, whatever it
   * was before; any other piece arrives as it was. The source unwraps the
   * piece at `pos`, so `pos` must be occupied.
   */
  function MoveBlock(board: Board, pos: Square, newPos: Square): (r: Board)
    requires pos in board
    ensures newPos in r && r[newPos].1 == board[pos].1
    ensures board[pos].0.Pawn? ==> r[newPos].0 == Pawn(true)
    ensures !board[pos].0.Pawn? ==> r[newPos].0 == board[pos].0
    ensures pos != newPos ==> pos !in r
    ensures forall sq :: sq != pos && sq != newPos ==> Lookup(r, sq) == Lookup(board, sq)
    ensures r.Keys == board.Keys - {pos} + {newPos}
    ensures |r| <= |board|
  {
    var (piece, team) := board[pos];
    var moved := if piece.Pawn? then Pawn(true) else piece;
    assert |board.Keys - {pos}| == |board| - 1;
    (board - {pos})[newPos := (moved, team)]
  }

  /** The key events the loop reacts to; every other event is `Other`. */
  datatype Intent = Up | Down | Left | Right | Enter | Other

  /**
   * The state the key handler works on: the board, the cursor square
   * (`user_selected`) and the selected square whose moves are shown
   * (`box_selected`).
   */
  datatype Session = Session(board: Board, cursor: Square, selected: Option<Square>)

  /** The two `unwrap`s of the key handler that abort when they meet `None`. */
  datatype Fault =
    | SelectedSquareEmpty  // the selected square holds no piece
    | NothingSelected      // a move is committed with no square selected

  /** `ChessBoard::new`: the initial board, the cursor on (1, 1), nothing selected. */
  function NewSession(): (s: Session)
    ensures s.cursor == (1, 1) && OnGrid(s.cursor)
    ensures s.selected.None?
  {
    Session(ConstructBoard(), (1, 1), None)
  }

  /**
   * `get_avialable_blocks`: the move and attack squares of the selected piece,
   * for its own team and moved flag, or none when nothing is selected. It fails exactly when the selected square
   * is empty.
   */
  function GetAvailableBlocks(s: Session): (r: Result<AvailableBlocks, Fault>)
    ensures s.selected.None? ==> r == Success(NoBlocks())
    ensures r.Failure? <==> s.selected.Some? && s.selected.value !in s.board
    ensures r.Failure? ==> r.error == SelectedSquareEmpty
    ensures r.Success? && s.selected.Some? && !s.board[s.selected.value].0.Pawn? ==> r.value == NoBlocks()
    ensures r.Success? && s.selected.Some? && s.board[s.selected.value].0.Pawn? ==>
      var sel := s.selected.value;
      var (piece, team) := s.board[sel];
      && (forall sq :: sq in r.value.moveBlocks <==>
            sq !in s.board && (sq == OneStep(sel, team) || (!piece.hasMoved && sq == TwoStep(sel, team))))
      && (forall sq :: sq in r.value.attackBlocks <==>
            sq in s.board && (sq == UpperDiagonal(sel, team) || sq == LowerDiagonal(sel, team)))
    ensures r.Success? ==> forall sq :: sq in r.value.moveBlocks ==> sq !in s.board
    ensures r.Success? ==> forall sq :: sq in r.value.attackBlocks ==> sq in s.board
  {
    match s.selected
    case None => Success(NoBlocks())
    case Some(sel) =>
      if sel !in s.board then Failure(SelectedSquareEmpty)
      else
        var (piece, team) := s.board[sel];
        Success(GetMoveBlocks(piece, team, s.board, sel))
  }

  /** Whether `sq` is one of the squares a commit may go to. */
  predicate IsTarget(blocks: AvailableBlocks, sq: Square)
  {
    sq in blocks.moveBlocks || sq in blocks.attackBlocks
  }

  /**
   * The four arrow arms of the key handler. Up and Left use `checked_sub(1)`
   * falling back to 1, then `max(1)`; Down and Right use a plain `+ 1`, then
   * `min(8)`. Any other intent leaves the cursor where it is.
   */
  function MoveCursor(cursor: Square, intent: Intent): (r: Square)
    ensures intent == Up ==> r.0 == cursor.0 && r.1 == (if cursor.1 <= 2 then 1 else cursor.1 - 1)
    ensures intent == Down ==> r.0 == cursor.0 && r.1 == (if cursor.1 == 255 then 0 else if cursor.1 >= 7 then 8 else cursor.1 + 1)
    ensures intent == Left ==> r.1 == cursor.1 && r.0 == (if cursor.0 <= 2 then 1 else cursor.0 - 1)
    ensures intent == Right ==> r.1 == cursor.1 && r.0 == (if cursor.0 == 255 then 0 else if cursor.0 >= 7 then 8 else cursor.0 + 1)
    ensures intent !in {Up, Down, Left, Right} ==> r == cursor
    ensures OnGrid(cursor) ==> OnGrid(r)
  {
    match intent
    case Up => (cursor.0, Max(CheckedSub(cursor.1, 1).UnwrapOr(1), 1))
    case Down => (cursor.0, Min(WrappingAdd(cursor.1, 1), 8))
    case Left => (Max(CheckedSub(cursor.0, 1).UnwrapOr(1), 1), cursor.1)
    case Right => (Min(WrappingAdd(cursor.0, 1), 8), cursor.1)
    case _ => cursor
  }

  function Max(a: U8, b: U8): U8
  {
    if a < b then b else a
  }

  function Min(a: U8, b: U8): U8
  {
    if a < b then a else b
  }

  /**
   * The session invariant: pieces and cursor on the grid, and a selection, if
   * any, on an occupied square (which is what makes the handler's `unwrap`s
   * safe).
   */
  predicate Valid(s: Session)
  {
    BoardOnGrid(s.board) && OnGrid(s.cursor) && (s.selected.Some? ==> s.selected.value in s.board)
  }

  /**
   * One key event of `begin`. An arrow moves the cursor. Enter commits a move
   * from the selected square to the cursor when the cursor is on one of the
   * selected piece's move or attack squares and then clears the selection;
   * otherwise it selects the cursor square when that is occupied and does
   * nothing when it is empty. Any other key does nothing.
   */
  function Step(s: Session, intent: Intent): (r: Result<Session, Fault>)
    ensures Valid(s) ==> r.Success? && Valid(r.value)
    ensures r.Failure? ==> r.error == SelectedSquareEmpty && intent == Enter
    ensures r.Success? ==> |r.value.board| <= |s.board|
    ensures intent != Enter ==> r.Success? && r.value.board == s.board && r.value.selected == s.selected
  {
    match intent
    case Enter =>
      var blocks :- GetAvailableBlocks(s);
      if IsTarget(blocks, s.cursor) then
        match s.selected
        case None => Failure(NothingSelected)
        case Some(sel) => Success(Session(MoveBlock(s.board, sel, s.cursor), s.cursor, None))
      else if s.cursor in s.board then
        Success(s.(selected := Some(s.cursor)))
      else
        Success(s)
    case _ => Success(s.(cursor := MoveCursor(s.cursor, intent)))
  }

  /** The key handler applied to a sequence of events, stopping at the first abort. */
  function Run(s: Session, intents: seq<Intent>): (r: Result<Session, Fault>)
    ensures r.Failure? ==> r.error == SelectedSquareEmpty && Enter in intents
    ensures r.Success? ==> |r.value.board| <= |s.board|
    ensures Enter !in intents ==> r.Success? && r.value.board == s.board && r.value.selected == s.selected
    ensures Valid(s) ==> r.Success? && Valid(r.value)
    decreases |intents|
  {
    if intents == [] then Success(s)
    else
      match Step(s, intents[0])
      case Failure(e) => Failure(e)
      case Success(next) => Run(next, intents[1..])
  }
}

=== FILE: initial_board.dfy ===
/**
 * Facts about `construct_board`: it agrees square by square with a placement
 * table written independently of its loops, it puts exactly 32 pieces on the
 * grid (16 per team), and none of its 32 inserts overwrites an earlier one.
 */
module InitialBoard {
  import opened Options
  import opened Unsigned8
  import opened Pieces
  import opened ChessBoard

  /** The back-rank piece on `file`: towers outside, then bishops, then knights. */
  function BackRankPiece(file: U8): Piece
    requires file in {1, 2, 3, 6, 7, 8}
  {
    if file == 1 || file == 8 then Tower
    else if file == 2 || file == 7 then Bishop
    else Knight
  }

  /**
   * The initial placement as a table. Pawns that have not moved fill rank 2
   * (Black) and rank 7 (White). On ranks 1 and 8 alike, towers, bishops and
   * knights on files 1-3 are Black and on files 6-8 White; the king (file 4)
   * and the queen (file 5) are Black on rank 1 and White on rank 8.
   */
  function InitialOccupant(sq: Square): Option<(Piece, Team)>
  {
    var (file, rank) := sq;
    if !(1 <= file <= 8) then None
    else if rank == 2 then Some((Pawn(false), Black))
    else if rank == 7 then Some((Pawn(false), White))
    else if rank != 1 && rank != 8 then None
    else if file == 4 then Some((King, if rank == 1 then Black else White))
    else if file == 5 then Some((Queen, if rank == 1 then Black else White))
    else Some((BackRankPiece(file), if file <= 3 then Black else White))
  }

  /** The squares of `rank` whose file lies in [lo, hi]. */
  function RankSpan(rank: U8, lo: int, hi: int): set<Square>
  {
    set file: U8 | lo <= file <= hi :: (file, rank)
  }

  /** A square is in a span exactly when it is on that rank with its file in range. */
  lemma RankSpanMembers(rank: U8, lo: int, hi: int)
    ensures forall sq :: sq in RankSpan(rank, lo, hi) <==> sq.1 == rank && lo <= sq.0 <= hi
  {
  }

  /** A span of files on one rank holds one square per file. */
  lemma {:induction false} RankSpanSize(rank: U8, lo: int, hi: int)
    requires 0 <= lo <= hi + 1 && hi < Modulus
    ensures |RankSpan(rank, lo, hi)| == hi - lo + 1
    decreases hi - lo
  {
    if hi < lo {
      assert RankSpan(rank, lo, hi) == {};
    } else {
      var shorter := hi - 1;
      RankSpanSize(rank, lo, shorter);
      assert RankSpan(rank, lo, hi) == RankSpan(rank, lo, shorter) + {(hi, rank)};
    }
  }

  /** The squares named by the placements of a log. */
  function LogKeys(log: seq<Placement>): set<Square>
  {
    set p | p in log :: p.0
  }

  /** The squares a sequence of inserts occupies: the old ones and the inserted ones. */
  lemma {:induction false} InsertAllKeys(board: Board, log: seq<Placement>)
    ensures InsertAll(board, log).Keys == board.Keys + LogKeys(log)
    decreases |log|
  {
    if log != [] {
      InsertAllKeys(board[log[0].0 := log[0].1], log[1..]);
      assert LogKeys(log) == {log[0].0} + LogKeys(log[1..]) by {
        assert forall p :: p in log <==> p == log[0] || p in log[1..];
      }
    }
  }

  /** Board squares agree with the table. */
  predicate AgreesWithTable(board: Board)
  {
    forall sq :: sq in board ==> InitialOccupant(sq) == Some(board[sq])
  }

  /** Placements agree with the table. */
  predicate LogAgreesWithTable(log: seq<Placement>)
  {
    forall p :: p in log ==> InitialOccupant(p.0) == Some(p.1)
  }

  /** Inserting placements that agree with the table keeps a board that agrees with it. */
  lemma {:induction false} InsertAllAgrees(board: Board, log: seq<Placement>)
    requires AgreesWithTable(board) && LogAgreesWithTable(log)
    ensures AgreesWithTable(InsertAll(board, log))
    decreases |log|
  {
    if log != [] {
      assert log[0] in log;
      assert forall p :: p in log[1..] ==> p in log;
      InsertAllAgrees(board[log[0].0 := log[0].1], log[1..]);
    }
  }

  /** The pawn loop from `role` on performs two inserts per remaining file. */
  lemma {:induction false} PawnLoopLength(role: U8)
    requires 1 <= role <= 9
    ensures |PawnLoop(role)| == 2 * (9 - role)
    decreases 9 - role
  {
    if role < 9 {
      PawnLoopLength(role + 1);
    }
  }

  /** Every placement of the pawn loop agrees with the table. */
  lemma {:induction false} PawnLoopAgrees(role: U8)
    requires 1 <= role <= 9
    ensures LogAgreesWithTable(PawnLoop(role))
    decreases 9 - role
  {
    if role < 9 {
      var next: U8 := role + 1;
      PawnLoopAgrees(next);
      var head := [((role, 2), (Pawn(false), Black)), ((role, 7), (Pawn(false), White))];
      assert PawnLoop(role) == head + PawnLoop(next);
      assert LogAgreesWithTable(head);
      LogAgreesAppend(head, PawnLoop(next));
    }
  }

  /** A non-empty span is its first square plus the rest. */
  lemma RankSpanSplit(rank: U8, lo: U8, hi: int)
    requires lo <= hi
    ensures RankSpan(rank, lo, hi) == {(lo, rank)} + RankSpan(rank, lo + 1, hi)
  {
  }

  /** The pawn loop from `role` on fills files `role` to 8 of ranks 2 and 7. */
  lemma {:induction false} PawnLoopKeys(role: U8)
    requires 1 <= role <= 9
    ensures LogKeys(PawnLoop(role)) == RankSpan(2, role, 8) + RankSpan(7, role, 8)
    decreases 9 - role
  {
    if role == 9 {
      RankSpanMembers(2, role, 8);
      RankSpanMembers(7, role, 8);
    } else {
      var next: U8 := role + 1;
      PawnLoopKeys(next);
      var head := [((role, 2), (Pawn(false), Black)), ((role, 7), (Pawn(false), White))];
      assert PawnLoop(role) == head + PawnLoop(next);
      LogKeysPair(head[0], head[1]);
      LogKeysAppend(head, PawnLoop(next));
      RankSpanSplit(2, role, 8);
      RankSpanSplit(7, role, 8);
    }
  }

  /** The pawn loop inserts 16 unmoved pawns: Black on all of rank 2, White on all of rank 7. */
  lemma PawnLoopFacts()
    ensures |PawnLoop(1)| == 16
    ensures LogAgreesWithTable(PawnLoop(1))
    ensures LogKeys(PawnLoop(1)) == RankSpan(2, 1, 8) + RankSpan(7, 1, 8)
  {
    PawnLoopLength(1);
    PawnLoopAgrees(1);
    PawnLoopKeys(1);
  }

  /** The squares the table fills: all of ranks 1, 2, 7 and 8. */
  function InitialSquares(): set<Square>
  {
    RankSpan(1, 1, 8) + RankSpan(2, 1, 8) + RankSpan(7, 1, 8) + RankSpan(8, 1, 8)
  }

  /** The table fills exactly ranks 1, 2, 7 and 8, files 1 to 8. */
  lemma InitialSquaresAreTableSquares()
    ensures forall sq :: sq in InitialSquares() <==> InitialOccupant(sq).Some?
  {
    RankSpanMembers(1, 1, 8);
    RankSpanMembers(2, 1, 8);
    RankSpanMembers(7, 1, 8);
    RankSpanMembers(8, 1, 8);
  }

  /** The four filled ranks hold 32 squares. */
  lemma InitialSquaresSize()
    ensures |InitialSquares()| == 32
  {
    RankSpanSize(1, 1, 8);
    RankSpanSize(2, 1, 8);
    RankSpanSize(7, 1, 8);
    RankSpanSize(8, 1, 8);
    DisjointUnionSize(RankSpan(1, 1, 8), RankSpan(2, 1, 8));
    DisjointUnionSize(RankSpan(1, 1, 8) + RankSpan(2, 1, 8), RankSpan(7, 1, 8));
    DisjointUnionSize(RankSpan(1, 1, 8) + RankSpan(2, 1, 8) + RankSpan(7, 1, 8), RankSpan(8, 1, 8));
  }

  /** Disjoint sets add their sizes. */
  lemma DisjointUnionSize<T>(a: set<T>, b: set<T>)
    requires a !! b
    ensures |a + b| == |a| + |b|
  {
  }

  /** The squares of two logs placed one after the other. */
  lemma LogKeysAppend(a: seq<Placement>, b: seq<Placement>)
    ensures LogKeys(a + b) == LogKeys(a) + LogKeys(b)
  {
  }

  /** The squares of one loop iteration's two placements. */
  lemma LogKeysPair(x: Placement, y: Placement)
    ensures LogKeys([x, y]) == {x.0, y.0}
  {
  }

  /** One iteration of a back-rank loop adds the square at `file` and its mirror at `9 - file`. */
  lemma BackRankLoopStep(defaults: seq<(Square, Piece)>, mirrorRank: bool)
    requires defaults != []
    ensures var (sq, _) := defaults[0];
      var rank := if mirrorRank then WrappingSub(9, sq.1) else sq.1;
      LogKeys(BackRankLoop(defaults, mirrorRank))
        == {(sq.0, rank), (WrappingSub(9, sq.0), rank)} + LogKeys(BackRankLoop(defaults[1..], mirrorRank))
  {
  }

  /** The first two loops' squares: files 1-3 and 6-8 of ranks 1 and 8. */
  lemma BackRankLoopKeys(mirrorRank: bool)
    ensures var rank := if mirrorRank then 8 else 1;
      LogKeys(BackRankLoop(DefaultBackRank, mirrorRank)) == {(1, rank), (8, rank)} + {(2, rank), (7, rank)} + {(3, rank), (6, rank)}
  {
    var d: seq<(Square, Piece)> := DefaultBackRank;
    assert d[1..] == [((2, 1), Bishop), ((3, 1), Knight)];
    assert d[1..][1..] == [((3, 1), Knight)];
    assert |d[1..][1..][1..]| == 0;
    BackRankLoopStep(d, mirrorRank);
    BackRankLoopStep(d[1..], mirrorRank);
    BackRankLoopStep(d[1..][1..], mirrorRank);
    assert LogKeys(BackRankLoop(d[1..][1..][1..], mirrorRank)) == {};
  }

  /** A default back-rank entry: a tower, bishop or knight on its file among 1-3 of rank 1. */
  predicate BackRankDefault(d: (Square, Piece))
  {
    d.0.1 == 1 && 1 <= d.0.0 <= 3 && d.1 == BackRankPiece(d.0.0)
  }

  /** A back-rank loop over default entries places only what the table says, one iteration at a time. */
  lemma {:induction false} BackRankLoopAgreesFrom(defaults: seq<(Square, Piece)>, mirrorRank: bool)
    requires forall i :: 0 <= i < |defaults| ==> BackRankDefault(defaults[i])
    ensures LogAgreesWithTable(BackRankLoop(defaults, mirrorRank))
    decreases |defaults|
  {
    if defaults != [] {
      var rest := defaults[1..];
      assert forall i :: 0 <= i < |rest| ==> rest[i] == defaults[i + 1];
      BackRankLoopAgreesFrom(rest, mirrorRank);
      var (sq, piece) := defaults[0];
      var rank := if mirrorRank then WrappingSub(9, sq.1) else sq.1;
      var head := [((sq.0, rank), (piece, Black)), ((WrappingSub(9, sq.0), rank), (piece, White))];
      assert BackRankLoop(defaults, mirrorRank) == head + BackRankLoop(rest, mirrorRank);
      assert LogAgreesWithTable(head);
      LogAgreesAppend(head, BackRankLoop(rest, mirrorRank));
    }
  }

  /** The first two loops agree with the table. */
  lemma BackRankLoopAgrees(mirrorRank: bool)
    ensures LogAgreesWithTable(BackRankLoop(DefaultBackRank, mirrorRank))
  {
    BackRankLoopAgreesFrom(DefaultBackRank, mirrorRank);
  }

  /** The royal loop's squares: files 4 and 5 of ranks 1 and 8. */
  lemma RoyalLoopKeys()
    ensures LogKeys(RoyalLoop(DefaultRoyals)) == {(4, 1), (4, 8), (5, 1), (5, 8)}
    ensures LogAgreesWithTable(RoyalLoop(DefaultRoyals))
  {
  }

  /** Two logs that agree with the table agree with it one after the other. */
  lemma LogAgreesAppend(a: seq<Placement>, b: seq<Placement>)
    requires LogAgreesWithTable(a) && LogAgreesWithTable(b)
    ensures LogAgreesWithTable(a + b)
  {
  }

  /** Files 1-3, 4, 5 and 6-8 make up a whole rank. */
  lemma BackRankSquaresFillRanks()
    ensures ({(1, 1), (8, 1)} + {(2, 1), (7, 1)} + {(3, 1), (6, 1)})
      + ({(1, 8), (8, 8)} + {(2, 8), (7, 8)} + {(3, 8), (6, 8)})
      + {(4, 1), (4, 8), (5, 1), (5, 8)} == RankSpan(1, 1, 8) + RankSpan(8, 1, 8)
  {
  }

  /** The back-rank and royal loops together perform 16 inserts. */
  lemma BackRanksLength()
    ensures |BackRankLoop(DefaultBackRank, false) + BackRankLoop(DefaultBackRank, true) + RoyalLoop(DefaultRoyals)| == 16
  {
  }

  /** The back-rank and royal loops: 16 placements filling ranks 1 and 8, agreeing with the table. */
  lemma BackRanksFacts()
    ensures var log := BackRankLoop(DefaultBackRank, false) + BackRankLoop(DefaultBackRank, true) + RoyalLoop(DefaultRoyals);
      && |log| == 16
      && LogAgreesWithTable(log)
      && LogKeys(log) == RankSpan(1, 1, 8) + RankSpan(8, 1, 8)
  {
    var first := BackRankLoop(DefaultBackRank, false);
    var second := BackRankLoop(DefaultBackRank, true);
    var royals := RoyalLoop(DefaultRoyals);
    BackRanksLength();
    BackRankLoopAgrees(false);
    BackRankLoopAgrees(true);
    RoyalLoopKeys();
    LogAgreesAppend(first, second);
    LogAgreesAppend(first + second, royals);
    BackRankLoopKeys(false);
    BackRankLoopKeys(true);
    LogKeysAppend(first, second);
    LogKeysAppend(first + second, royals);
    BackRankSquaresFillRanks();
  }

  /** The whole insertion log: 32 placements, each agreeing with the table, naming every table square. */
  lemma InsertionLogFacts()
    ensures |InsertionLog()| == 32
    ensures LogAgreesWithTable(InsertionLog())
    ensures LogKeys(InsertionLog()) == InitialSquares()
  {
    BackRanksFacts();
    PawnLoopFacts();
    var backs := BackRankLoop(DefaultBackRank, false) + BackRankLoop(DefaultBackRank, true) + RoyalLoop(DefaultRoyals);
    var pawns := PawnLoop(1);
    var log := InsertionLog();
    assert log == backs + pawns;
    LogAgreesAppend(backs, pawns);
    LogKeysAppend(backs, pawns);
  }

  /** The squares of `board` held by `team`. */
  function TeamSquares(board: Board, team: Team): set<Square>
  {
    set sq | sq in board && board[sq].1 == team
  }

  /** `construct_board` puts on every square exactly what the table says. */
  lemma ConstructBoardMatchesTable()
    ensures forall sq :: Lookup(ConstructBoard(), sq) == InitialOccupant(sq)
    ensures ConstructBoard().Keys == InitialSquares()
  {
    var log := InsertionLog();
    var board := InsertAll(map[], log);
    assert board == ConstructBoard();
    InsertionLogFacts();
    InsertAllKeys(map[], log);
    InsertAllAgrees(map[], log);
    InitialSquaresAreTableSquares();
    TableMatch(board);
  }

  /** A board that agrees with the table and fills its squares is the table. */
  lemma TableMatch(board: Board)
    requires AgreesWithTable(board)
    requires board.Keys == InitialSquares()
    requires forall sq :: sq in InitialSquares() <==> InitialOccupant(sq).Some?
    ensures forall sq :: Lookup(board, sq) == InitialOccupant(sq)
  {
  }

  /**
   * `construct_board` places 32 pieces, all on the grid, 16 per team; since it
   * performs 32 inserts, none of them overwrote an earlier one.
   */
  lemma ConstructBoardCounts()
    ensures |ConstructBoard()| == 32 == |InsertionLog()|
    ensures BoardOnGrid(ConstructBoard())
    ensures |TeamSquares(ConstructBoard(), Black)| == 16
    ensures |TeamSquares(ConstructBoard(), White)| == 16
  {
    ConstructBoardMatchesTable();
    InsertionLogFacts();
    InitialSquaresSize();
    TableOnGrid(ConstructBoard());
    TableTeamSize(ConstructBoard(), Black);
    TableTeamSize(ConstructBoard(), White);
  }

  /** A board equal to the table has all its pieces on the grid. */
  lemma TableOnGrid(board: Board)
    requires forall sq :: Lookup(board, sq) == InitialOccupant(sq)
    ensures BoardOnGrid(board)
  {
    forall sq | sq in board
      ensures OnGrid(sq)
    {
      assert Lookup(board, sq) == InitialOccupant(sq);
    }
  }

  /** Where the table puts a team's pieces: a run of back-rank files on each back rank, and its pawn rank. */
  function TeamSpans(team: Team): (set<Square>, set<Square>, set<Square>)
  {
    if team == Black then (RankSpan(1, 1, 5), RankSpan(2, 1, 8), RankSpan(8, 1, 3))
    else (RankSpan(1, 6, 8), RankSpan(7, 1, 8), RankSpan(8, 4, 8))
  }

  /** On a board equal to the table, a team holds exactly the squares of its three spans. */
  lemma TableTeamSquares(board: Board, team: Team)
    requires forall sq :: Lookup(board, sq) == InitialOccupant(sq)
    ensures var (a, b, c) := TeamSpans(team); TeamSquares(board, team) == a + b + c
  {
    var (a, b, c) := TeamSpans(team);
    if team == Black {
      RankSpanMembers(1, 1, 5);
      RankSpanMembers(2, 1, 8);
      RankSpanMembers(8, 1, 3);
    } else {
      RankSpanMembers(1, 6, 8);
      RankSpanMembers(7, 1, 8);
      RankSpanMembers(8, 4, 8);
    }
    forall sq
      ensures sq in TeamSquares(board, team) <==> sq in a + b + c
    {
      assert Lookup(board, sq) == InitialOccupant(sq);
    }
  }

  /** Each team's three spans are disjoint and hold 16 squares together. */
  lemma TeamSpansSize(team: Team)
    ensures var (a, b, c) := TeamSpans(team); |a + b + c| == 16
  {
    var (a, b, c) := TeamSpans(team);
    var (lo1, hi1, pawnRank, lo8, hi8) := if team == Black then (1, 5, 2, 1, 3) else (6, 8, 7, 4, 8);
    assert a == RankSpan(1, lo1, hi1) && b == RankSpan(pawnRank, 1, 8) && c == RankSpan(8, lo8, hi8);
    RankSpanMembers(1, lo1, hi1);
    RankSpanMembers(pawnRank, 1, 8);
    RankSpanMembers(8, lo8, hi8);
    RankSpanSize(1, lo1, hi1);
    RankSpanSize(pawnRank, 1, 8);
    RankSpanSize(8, lo8, hi8);
    DisjointUnionSize(a, b);
    DisjointUnionSize(a + b, c);
  }

  /**
   * On a board equal to the table, each team holds five squares of its home
   * back rank, three of the other back rank and its whole pawn rank.
   */
  lemma TableTeamSize(board: Board, team: Team)
    requires forall sq :: Lookup(board, sq) == InitialOccupant(sq)
    ensures |TeamSquares(board, team)| == 16
  {
    TableTeamSquares(board, team);
    TeamSpansSize(team);
  }

  /**
   * The back ranks are split between the teams by file, not by rank: on rank 1
   * and on rank 8 alike the tower, bishop and knight on files 1-3 are Black and
   * those on files 8, 7 and 6 are White; the kings stand on (4, 1) and (4, 8),
   * the queens on (5, 1) and (5, 8).
   */
  lemma BackRanksSplitByFile(rank: U8)
    requires rank == 1 || rank == 8
    ensures Lookup(ConstructBoard(), (1, rank)) == Some((Tower, Black))
    ensures Lookup(ConstructBoard(), (2, rank)) == Some((Bishop, Black))
    ensures Lookup(ConstructBoard(), (3, rank)) == Some((Knight, Black))
    ensures Lookup(ConstructBoard(), (8, rank)) == Some((Tower, White))
    ensures Lookup(ConstructBoard(), (7, rank)) == Some((Bishop, White))
    ensures Lookup(ConstructBoard(), (6, rank)) == Some((Knight, White))
    ensures Lookup(ConstructBoard(), (4, rank)) == Some((King, if rank == 1 then Black else White))
    ensures Lookup(ConstructBoard(), (5, rank)) == Some((Queen, if rank == 1 then Black else White))
  {
    ConstructBoardMatchesTable();
    TableBackRank(ConstructBoard(), rank);
  }

  /** The back-rank facts for any board equal to the table. */
  lemma TableBackRank(board: Board, rank: U8)
    requires forall sq :: Lookup(board, sq) == InitialOccupant(sq)
    requires rank == 1 || rank == 8
    ensures Lookup(board, (1, rank)) == Some((Tower, Black))
    ensures Lookup(board, (2, rank)) == Some((Bishop, Black))
    ensures Lookup(board, (3, rank)) == Some((Knight, Black))
    ensures Lookup(board, (8, rank)) == Some((Tower, White))
    ensures Lookup(board, (7, rank)) == Some((Bishop, White))
    ensures Lookup(board, (6, rank)) == Some((Knight, White))
    ensures Lookup(board, (4, rank)) == Some((King, if rank == 1 then Black else White))
    ensures Lookup(board, (5, rank)) == Some((Queen, if rank == 1 then Black else White))
  {
  }

  /** Ranks 2 and 7 hold unmoved pawns, Black and White; ranks 3 to 6 are empty. */
  lemma PawnRanks(file: U8)
    requires 1 <= file <= 8
    ensures Lookup(ConstructBoard(), (file, 2)) == Some((Pawn(false), Black))
    ensures Lookup(ConstructBoard(), (file, 7)) == Some((Pawn(false), White))
    ensures forall rank: U8 :: 3 <= rank <= 6 ==> (file, rank) !in ConstructBoard()
  {
    ConstructBoardMatchesTable();
    TablePawnRanks(ConstructBoard(), file);
  }

  /** The pawn-rank facts for any board equal to the table. */
  lemma TablePawnRanks(board: Board, file: U8)
    requires forall sq :: Lookup(board, sq) == InitialOccupant(sq)
    requires 1 <= file <= 8
    ensures Lookup(board, (file, 2)) == Some((Pawn(false), Black))
    ensures Lookup(board, (file, 7)) == Some((Pawn(false), White))
    ensures forall rank: U8 :: 3 <= rank <= 6 ==> (file, rank) !in board
  {
    assert Lookup(board, (file, 2)) == InitialOccupant((file, 2));
    assert Lookup(board, (file, 7)) == InitialOccupant((file, 7));
    forall rank: U8 | 3 <= rank <= 6
      ensures (file, rank) !in board
    {
      assert Lookup(board, (file, rank)) == InitialOccupant((file, rank));
    }
  }
}

=== FILE: options.dfy ===
/**
 * Optional values and fallible results, the two shapes the board code uses for
 * `Option<T>` and for the `unwrap` calls that abort the program when they fail.
 */
module Options {

  /** Rust's `Option<T>`. */
  datatype Option<+T> = None | Some(value: T) {

    /** `unwrap_or(default)`: the held value, or `default` when there is none. */
    function UnwrapOr(default: T): T
    {
      match this
      case Some(v) => v
      case None => default
    }
  }

  /** The outcome of an operation that either yields a value or aborts with a reason. */
  datatype Result<+T, +E> = Success(value: T) | Failure(error: E) {

    predicate IsFailure()
    {
      Failure?
    }

    function PropagateFailure<U>(): Result<U, E>
      requires Failure?
    {
      Failure(error)
    }

    function Extract(): T
      requires Success?
    {
      value
    }
  }
}

=== FILE: pieces.dfy ===
/**
 * Pieces, teams and the move rules of `src/pieces.rs`.
 *
 * Only the pawn has rules: it may move straight ahead onto empty squares (one
 * step, or two while it has not moved yet) and may attack the two diagonal
 * squares ahead of it when they are occupied, by any team. Which way is
 * "ahead" depends on the team: Black counts ranks up, White counts them down.
 */
module Pieces {
  import opened Options
  import opened Unsigned8

  datatype Team = White | Black

  /** The kinds of piece; a pawn carries whether it has moved yet. */
  datatype Piece = Pawn(hasMoved: bool) | King | Queen | Bishop | Knight | Tower

  /** A square as (file, rank), both stored as `u8`. */
  type Square = (U8, U8)

  /** The board: occupied squares mapped to their piece and its team. */
  type Board = map<Square, (Piece, Team)>

  /** The squares a selected piece may move to (empty) and attack (occupied). */
  datatype AvailableBlocks = AvailableBlocks(attackBlocks: seq<Square>, moveBlocks: seq<Square>)

  /** `AvialableBlocks::new()`: nothing to move to and nothing to attack. */
  function NoBlocks(): AvailableBlocks
  {
    AvailableBlocks([], [])
  }

  /** Both coordinates lie on the 8x8 grid. */
  predicate OnGrid(sq: Square)
  {
    1 <= sq.0 <= 8 && 1 <= sq.1 <= 8
  }

  /** Every piece stands on the 8x8 grid. */
  predicate BoardOnGrid(board: Board)
  {
    forall sq :: sq in board ==> OnGrid(sq)
  }

  /** The two-letter code the board drawing prints for a piece. */
  function PieceChar(piece: Piece): (code: string)
    ensures |code| == 2
    ensures forall i :: 0 <= i < |code| ==> 'A' <= code[i] <= 'Z'
  {
    match piece
    case Pawn(_) => "PA"
    case King => "KI"
    case Bishop => "BI"
    case Queen => "QU"
    case Knight => "KN"
    case Tower => "TO"
  }

  /** Two pieces are of one kind when they are equal or both pawns. */
  predicate SameKind(a: Piece, b: Piece)
  {
    a == b || (a.Pawn? && b.Pawn?)
  }

  /** The printed code tells kinds apart and ignores only the pawn's moved flag. */
  lemma PieceCharIdentifiesKind(a: Piece, b: Piece)
    ensures PieceChar(a) == PieceChar(b) <==> SameKind(a, b)
  {
  }

  /** A block list after a conditional push, and whether the push happened. */
  datatype Pushed = Pushed(blocks: seq<Square>, added: bool)

  /** `add_contains`: push `position` onto `blocks` when the board has no piece there. */
  function AddContains(blocks: seq<Square>, board: Board, position: Square): (r: Pushed)
    ensures r.added <==> position !in board
    ensures |r.blocks| == |blocks| + (if r.added then 1 else 0)
    ensures r.blocks[..|blocks|] == blocks
    ensures r.added ==> r.blocks[|blocks|] == position
  {
    if position !in board then Pushed(blocks + [position], true) else Pushed(blocks, false)
  }

  /** `add_not_contains`: push `position` onto `blocks` when the board has a piece there. */
  function AddNotContains(blocks: seq<Square>, board: Board, position: Square): (r: Pushed)
    ensures r.added <==> position in board
    ensures |r.blocks| == |blocks| + (if r.added then 1 else 0)
    ensures r.blocks[..|blocks|] == blocks
    ensures r.added ==> r.blocks[|blocks|] == position
  {
    if position in board then Pushed(blocks + [position], true) else Pushed(blocks, false)
  }

  /** For every square exactly one of the two pushes happens. */
  lemma AddContainsIsDualOfAddNotContains(blocks: seq<Square>, board: Board, position: Square)
    ensures AddContains(blocks, board, position).added != AddNotContains(blocks, board, position).added
    ensures AddContains(blocks, board, position).added ==> AddNotContains(blocks, board, position).blocks == blocks
    ensures AddNotContains(blocks, board, position).added ==> AddContains(blocks, board, position).blocks == blocks
  {
  }

  /**
   * `relative_to_team`: the rank `add` steps ahead of `initial` for `team`.
   * Only a `u8` overflow falls back to a fixed rank (8 for Black, 1 for White);
   * a result off the 8x8 grid is returned as it is.
   */
  function RelativeToTeam(initial: U8, add: U8, team: Team): (r: U8)
    ensures team == Black ==> r == (if initial + add < Modulus then initial + add else 8)
    ensures team == White ==> r == (if add <= initial then initial - add else 1)
  {
    match team
    case Black => CheckedAdd(initial, add).UnwrapOr(8)
    case White => CheckedSub(initial, add).UnwrapOr(1)
  }

  /** From any rank on the grid, a Black pawn's one- and two-step ranks are exact. */
  lemma BlackNeverSaturatesOnGrid(initial: U8, add: U8)
    requires 1 <= initial <= 8 && 1 <= add <= 2
    ensures RelativeToTeam(initial, add, Black) == initial + add
    ensures 2 <= RelativeToTeam(initial, add, Black) <= 10
  {
  }

  /** A White pawn saturates only when it would step below rank 0. */
  lemma WhiteSaturatesOnlyBelowZero(initial: U8, add: U8)
    requires 1 <= initial <= 8 && 1 <= add <= 2
    ensures add <= initial ==> RelativeToTeam(initial, add, White) == initial - add
    ensures add > initial ==> initial == 1 && add == 2 && RelativeToTeam(initial, add, White) == 1
  {
  }

  /** The square one step straight ahead of `position`. */
  function OneStep(position: Square, team: Team): Square
  {
    (position.0, RelativeToTeam(position.1, 1, team))
  }

  /** The square two steps straight ahead of `position`. */
  function TwoStep(position: Square, team: Team): Square
  {
    (position.0, RelativeToTeam(position.1, 2, team))
  }

  /** The diagonal square ahead on the higher file (`position.0 + 1`). */
  function UpperDiagonal(position: Square, team: Team): Square
  {
    (WrappingAdd(position.0, 1), RelativeToTeam(position.1, 1, team))
  }

  /** The diagonal square ahead on the lower file (`position.0 - 1`). */
  function LowerDiagonal(position: Square, team: Team): Square
  {
    (WrappingSub(position.0, 1), RelativeToTeam(position.1, 1, team))
  }

  /**
   * `get_pawn`: the pawn's move squares (the two-step square first, while it
   * has not moved, then the one-step square; each only when empty) and its
   * attack squares (the higher-file diagonal, then the lower-file one; each
   * only when occupied). The two-step square does not need the one-step square
   * to be empty, and attacks do not look at the occupant's team.
   */
  function GetPawn(board: Board, position: Square, hasMoved: bool, team: Team): (r: AvailableBlocks)
    ensures forall sq :: sq in r.moveBlocks <==>
      sq !in board && (sq == OneStep(position, team) || (!hasMoved && sq == TwoStep(position, team)))
    ensures forall sq :: sq in r.attackBlocks <==>
      sq in board && (sq == UpperDiagonal(position, team) || sq == LowerDiagonal(position, team))
    ensures hasMoved ==> |r.moveBlocks| <= 1
    ensures |r.moveBlocks| <= 2 && |r.attackBlocks| <= 2
    ensures |r.moveBlocks| == 2 ==> r.moveBlocks == [TwoStep(position, team), OneStep(position, team)]
    ensures |r.attackBlocks| == 2 ==>
      r.attackBlocks == [UpperDiagonal(position, team), LowerDiagonal(position, team)]
  {
    var early := if !hasMoved then AddContains([], board, TwoStep(position, team)).blocks else [];
    var moves := AddContains(early, board, OneStep(position, team)).blocks;
    var upper := AddNotContains([], board, UpperDiagonal(position, team)).blocks;
    var attacks := AddNotContains(upper, board, LowerDiagonal(position, team)).blocks;
    AvailableBlocks(attacks, moves)
  }

  /**
   * `get_move_blocks`: the pawn rules for a pawn, for its own team and moved
   * flag; nothing for any other kind.
   * Move squares are always empty and attack squares always occupied, so no
   * square is both.
   */
  function GetMoveBlocks(piece: Piece, team: Team, board: Board, position: Square): (r: AvailableBlocks)
    ensures !piece.Pawn? ==> r.moveBlocks == [] && r.attackBlocks == []
    ensures piece.Pawn? ==> forall sq :: sq in r.moveBlocks <==>
      sq !in board && (sq == OneStep(position, team) || (!piece.hasMoved && sq == TwoStep(position, team)))
    ensures piece.Pawn? ==> forall sq :: sq in r.attackBlocks <==>
      sq in board && (sq == UpperDiagonal(position, team) || sq == LowerDiagonal(position, team))
    ensures forall sq :: sq in r.moveBlocks ==> sq !in board
    ensures forall sq :: sq in r.attackBlocks ==> sq in board
    ensures forall sq :: !(sq in r.moveBlocks && sq in r.attackBlocks)
  {
    match piece
    case Pawn(hasMoved) => GetPawn(board, position, hasMoved, team)
    case _ => NoBlocks()
  }

  /**
   * The diagonal files `position.0 + 1` and `position.0 - 1` are plain `u8`
   * arithmetic; from a file on the grid neither wraps around, so they land on
   * files 0 to 9.
   */
  lemma DiagonalFilesNeverWrap(position: Square, team: Team)
    requires 1 <= position.0 <= 8
    ensures UpperDiagonal(position, team).0 == position.0 + 1 <= 9
    ensures LowerDiagonal(position, team).0 == position.0 - 1 >= 0
  {
  }

  /**
   * On a board whose pieces are all on the grid, every attack square is on the
   * grid, so a diagonal off the edge (file 0 or 9, rank 0 or 9) is never one.
   */
  lemma AttacksStayOnGrid(piece: Piece, team: Team, board: Board, position: Square)
    requires BoardOnGrid(board)
    ensures forall sq :: sq in GetMoveBlocks(piece, team, board, position).attackBlocks ==> OnGrid(sq)
  {
  }

  /**
   * Move squares are not clipped to the grid. On any board whose pieces are all
   * on the grid, a moved White pawn on rank 1 may move to rank 0 and a moved
   * Black pawn on rank 8 to rank 9; an unmoved Black pawn on rank 8 would get
   * ranks 10 and 9.
   */
  lemma MoveSquaresMayLeaveGrid(board: Board, file: U8)
    requires BoardOnGrid(board)
    requires 1 <= file <= 8
    ensures GetPawn(board, (file, 1), true, White).moveBlocks == [(file, 0)]
    ensures GetPawn(board, (file, 8), true, Black).moveBlocks == [(file, 9)]
    ensures GetPawn(board, (file, 8), false, Black).moveBlocks == [(file, 10), (file, 9)]
  {
    assert (file, 0) !in board;
    assert (file, 9) !in board;
    assert (file, 10) !in board;
  }

  /**
   * The two-step square is tried on its own: an unmoved pawn whose one-step
   * square is blocked still gets the two-step square when that is empty.
   */
  lemma TwoStepIgnoresBlockedPath(board: Board, position: Square, team: Team)
    requires OneStep(position, team) in board && TwoStep(position, team) !in board
    ensures GetPawn(board, position, false, team).moveBlocks == [TwoStep(position, team)]
  {
  }

  /**
   * Attacks do not look at teams: a pawn counts a piece of its own team on
   * either forward diagonal among its attack squares.
   */
  lemma AttackIgnoresTeam(board: Board, position: Square, hasMoved: bool, team: Team)
    requires position in board && board[position].1 == team
    ensures forall sq ::
      (sq in board && board[sq].1 == team
        && (sq == UpperDiagonal(position, team) || sq == LowerDiagonal(position, team)))
      ==> sq in GetPawn(board, position, hasMoved, team).attackBlocks
  {
  }
}

=== FILE: session.dfy ===
/**
 * What holds of the key handler over whole sessions: from `ChessBoard::new`,
 * any sequence of key events keeps every piece and the cursor on the grid,
 * keeps the selection on an occupied square (so neither `unwrap` of the handler
 * ever meets `None`), never adds a piece, and leaves every pawn that has not
 * moved on the square where the setup put it.
 */
module SessionFacts {
  import opened Options
  import opened Pieces
  import opened ChessBoard
  import opened InitialBoard

  /** Every pawn whose moved flag is clear stands on its square of the initial table. */
  predicate UnmovedPawnsHome(board: Board)
  {
    forall sq :: sq in board && board[sq].0 == Pawn(false) ==> InitialOccupant(sq) == Some(board[sq])
  }

  /** The initial session satisfies the invariant, with 32 pieces on the board. */
  lemma NewSessionValid()
    ensures Valid(NewSession())
    ensures UnmovedPawnsHome(NewSession().board)
    ensures |NewSession().board| == 32
  {
    ConstructBoardCounts();
    ConstructBoardMatchesTable();
    var board := NewSession().board;
    forall sq | sq in board
      ensures InitialOccupant(sq) == Some(board[sq])
    {
      assert Lookup(board, sq) == InitialOccupant(sq);
    }
  }

  /** Relocating a piece sets a pawn's moved flag, so no pawn with a clear flag leaves home. */
  lemma MoveBlockKeepsPawnsHome(board: Board, pos: Square, newPos: Square)
    requires UnmovedPawnsHome(board)
    requires pos in board
    ensures UnmovedPawnsHome(MoveBlock(board, pos, newPos))
  {
    var t := MoveBlock(board, pos, newPos);
    forall sq | sq in t && t[sq].0 == Pawn(false)
      ensures InitialOccupant(sq) == Some(t[sq])
    {
      assert sq != newPos;
      assert Lookup(t, sq) == Lookup(board, sq);
    }
  }

  /**
   * A commit sets the moved flag of the pawn it moves and leaves every other
   * square as it was, so no pawn with a clear flag ever leaves home.
   */
  lemma StepKeepsPawnsHome(s: Session, intent: Intent)
    requires UnmovedPawnsHome(s.board)
    requires Step(s, intent).Success?
    ensures UnmovedPawnsHome(Step(s, intent).value.board)
  {
    if intent == Enter {
      var blocks := GetAvailableBlocks(s).value;
      if IsTarget(blocks, s.cursor) {
        var sel := s.selected.value;
        assert Step(s, intent).value.board == MoveBlock(s.board, sel, s.cursor);
        MoveBlockKeepsPawnsHome(s.board, sel, s.cursor);
      }
    }
  }

  /**
   * From a session satisfying the invariant, every sequence of key events runs
   * to the end without an abort, keeps the invariant and the pawns home, and
   * never increases the number of pieces.
   */
  lemma {:induction false} RunKeepsInvariants(s: Session, intents: seq<Intent>)
    requires Valid(s) && UnmovedPawnsHome(s.board)
    ensures Run(s, intents).Success?
    ensures Valid(Run(s, intents).value)
    ensures UnmovedPawnsHome(Run(s, intents).value.board)
    ensures |Run(s, intents).value.board| <= |s.board|
    decreases |intents|
  {
    if intents != [] {
      var next := Step(s, intents[0]).value;
      StepKeepsPawnsHome(s, intents[0]);
      RunKeepsInvariants(next, intents[1..]);
    }
  }

  /**
   * Any session played from `ChessBoard::new`: no abort, at most 32 pieces,
   * all on the grid, the cursor on the grid, the selection (if any) occupied,
   * and every unmoved pawn on its initial square.
   */
  lemma PlayFromStart(intents: seq<Intent>)
    ensures Run(NewSession(), intents).Success?
    ensures var s := Run(NewSession(), intents).value;
      && BoardOnGrid(s.board)
      && OnGrid(s.cursor)
      && (s.selected.Some? ==> s.selected.value in s.board)
      && |s.board| <= 32
      && UnmovedPawnsHome(s.board)
  {
    NewSessionValid();
    RunKeepsInvariants(NewSession(), intents);
  }

  /**
   * An arrow key moves the cursor by at most one square along one axis, keeps
   * it on the grid, and touches neither the board nor the selection.
   */
  lemma ArrowMovesCursorOneSquare(s: Session, intent: Intent)
    requires OnGrid(s.cursor)
    requires intent in {Up, Down, Left, Right}
    ensures Step(s, intent).Success?
    ensures var t := Step(s, intent).value;
      && OnGrid(t.cursor)
      && (t.cursor.0 == s.cursor.0 || t.cursor.1 == s.cursor.1)
      && -1 <= t.cursor.0 - s.cursor.0 <= 1
      && -1 <= t.cursor.1 - s.cursor.1 <= 1
      && t.board == s.board
      && t.selected == s.selected
  {
  }

  /**
   * The selected square is never among its own piece's move or attack
   * squares: it is occupied, so it is no move square, and an attack square
   * lies on a neighbouring file.
   */
  lemma SelectionIsNeverATarget(s: Session)
    requires s.selected.Some? && s.selected.value in s.board
    ensures GetAvailableBlocks(s).Success?
    ensures !IsTarget(GetAvailableBlocks(s).value, s.selected.value)
  {
  }

  /**
   * Enter on one of the selected piece's move or attack squares commits: the
   * piece leaves the selected square, stands on the cursor square with its
   * team (a pawn now marked as moved), whatever stood there before is gone,
   * every other square is as it was, and the selection is cleared.
   */
  lemma EnterOnTargetCommits(s: Session)
    requires s.selected.Some? && s.selected.value in s.board
    requires IsTarget(GetAvailableBlocks(s).value, s.cursor)
    ensures Step(s, Enter).Success?
    ensures var t := Step(s, Enter).value;
      var sel := s.selected.value;
      var (piece, team) := s.board[sel];
      && t.selected.None?
      && t.cursor == s.cursor
      && sel !in t.board
      && s.cursor in t.board
      && t.board[s.cursor] == (if piece.Pawn? then Pawn(true) else piece, team)
      && (forall sq :: sq != sel && sq != s.cursor ==> Lookup(t.board, sq) == Lookup(s.board, sq))
  {
  }

  /**
   * Enter anywhere else selects the cursor square when it is occupied,
   * replacing any earlier selection, and otherwise changes nothing; the board
   * is untouched either way.
   */
  lemma EnterElsewhereSelects(s: Session)
    requires GetAvailableBlocks(s).Success?
    requires !IsTarget(GetAvailableBlocks(s).value, s.cursor)
    ensures Step(s, Enter).Success?
    ensures Step(s, Enter).value.board == s.board
    ensures Step(s, Enter).value.cursor == s.cursor
    ensures s.cursor in s.board ==> Step(s, Enter).value.selected == Some(s.cursor)
    ensures s.cursor !in s.board ==> Step(s, Enter) == Success(s)
  {
  }

  /**
   * With nothing selected there is nothing to move to, so Enter never commits:
   * it selects an occupied cursor square and ignores an empty one.
   */
  lemma EnterWhileIdle(s: Session)
    requires s.selected.None?
    ensures Step(s, Enter).Success?
    ensures Step(s, Enter).value.board == s.board
    ensures Step(s, Enter).value.selected == (if s.cursor in s.board then Some(s.cursor) else None)
  {
  }

  /**
   * The unmoved Black pawn on (5, 2) of the initial board may move to (5, 4)
   * and (5, 3), in that order, and has nothing to attack.
   */
  lemma OpeningBlackPawn()
    ensures GetMoveBlocks(Pawn(false), Black, ConstructBoard(), (5, 2)) == AvailableBlocks([], [(5, 4), (5, 3)])
  {
    PawnRanks(4);
    PawnRanks(5);
    PawnRanks(6);
  }
}

=== FILE: unsigned8.dfy ===
/**
 * Rust's `u8` and the four kinds of arithmetic on it that the board code uses:
 * `checked_add` and `checked_sub`, which report overflow, and plain `+` and `-`,
 * which this model takes in their release-build meaning (wrap-around modulo 256).
 */
module Unsigned8 {
  import opened Options

  /** An unsigned 8-bit integer. */
  type U8 = x: int | 0 <= x < 256

  /** One more than the largest `u8`. */
  const Modulus: int := 256

  /** `a.checked_add(b)`. */
  function CheckedAdd(a: U8, b: U8): (r: Option<U8>)
    ensures r.None? <==> a + b >= Modulus
    ensures r.Some? ==> r.value - b == a
  {
    if a + b < Modulus then Some(a + b) else None
  }

  /** `a.checked_sub(b)`. */
  function CheckedSub(a: U8, b: U8): (r: Option<U8>)
    ensures r.None? <==> b > a
    ensures r.Some? ==> r.value + b == a
  {
    if b <= a then Some(a - b) else None
  }

  /** `a + b` on `u8` without an overflow check. */
  function WrappingAdd(a: U8, b: U8): (r: U8)
    ensures a + b < Modulus ==> r == a + b
    ensures a + b >= Modulus ==> r == a + b - Modulus
  {
    (a + b) % Modulus
  }

  /** `a - b` on `u8` without an overflow check. */
  function WrappingSub(a: U8, b: U8): (r: U8)
    ensures b <= a ==> r == a - b
    ensures b > a ==> r == a - b + Modulus
  {
    (a - b) % Modulus
  }

}
